=== FILE: README.md ===
# UDP file transfer — a Dafny model of the sender and the receiver

This project models the two programs of a small UDP file transfer. `client.py` sends the
base name of a file, then the file's bytes in datagrams of at most 4096 bytes, then the
literal `EOF`. `server.py` takes the first datagram of a session as the destination file
name. It then loops over datagrams of the form `<seq>|<payload>`. It writes the payload of
the datagram numbered `expected_seq`, answers every well-formed datagram with a decimal ACK,
ignores malformed ones, and stops at `EOF`.

Everything is a pure function over byte sequences. The server's per-datagram step is
`Server.Step(state, datagram) -> (state', optional ACK, done)`, and `Server.Run` folds it
over a list of datagrams. The client's output is the list of datagrams `Client.Messages`
it sends. The module `Transfer` feeds the one into the other.

Modules:

- `Wire` (wire.dfy): bytes, `Option`/`Result`, the delimiter `|`, the marker `EOF`, and
  concatenation.
- `Decimal` (decimal.dfy): `str(n).encode()` and the header parser that stands in for
  `int(header.decode())`.
- `Utf8` (utf8.dfy): the strict UTF-8 codec used by `filename.encode()` and `data.decode()`.
- `Server` (server.dfy, modelling server.py): the split at the first `|`, the step, the fold,
  and one session.
- `Client` (client.dfy, modelling client.py): the chunking read loop and the list of
  datagrams sent.
- `Transfer` (transfer.dfy): the client's datagrams delivered in order and without loss to
  the server.

Two details of the receiver matter for what is proved:

- A malformed datagram gets no ACK (server.py:26-28). Only a datagram that splits at `|`
  and whose header parses as a number is acknowledged.
- The ACK for an accepted datagram carries the number just accepted (server.py:31-32), not
  the new `expected_seq`. The ACK for a dropped one carries the current `expected_seq`
  (server.py:35).

## Model

| member | source | states |
|---|---|---|
| `Decimal.Text` | server.py:31 | `str(n).encode()` is a non-empty digit string with no leading zero, with no `\|`, different from `EOF`, and it parses back to `n` |
| `Decimal.ParseInt` | server.py:25 | a header that parses as a number is non-empty and holds no `\|` |
| `Decimal.CanonicalDigitsAreText` | server.py:25 | every canonical digit string parses to its value and is the text of that value; together with `Decimal.Text`, text and parse are inverse |
| `Utf8.DecodeFirst` | server.py:14 | a recognised leading scalar value is exactly the encoding of the character it returns |
| `Utf8.Encode` | client.py:24 | `filename.encode()` takes one to four bytes per character |
| `Utf8.EncodeHoldsZero` | client.py:24 | `filename.encode()` holds a zero byte exactly when the name holds NUL |
| `Utf8.EncodeEndsInAscii` | client.py:24 | `filename.encode()` ends in an ASCII byte exactly when the name ends in that character |
| `Utf8.Decode` | server.py:14 | a successful decode returns the only string that encodes to the given bytes |
| `Utf8.DecodeEncode` | server.py:14 | decoding the client's encoded name gives back the name |
| `Utf8.DecodeIsInverse` | server.py:14 | `decode(b) == s` exactly when `encode(s) == b` |
| `Server.SplitAtBar` | server.py:24 | `split(b"\|", 1)` fails exactly when there is no `\|`; otherwise the header holds no `\|` and header, `\|` and payload rebuild the datagram |
| `Server.SplitAtFirstBar` | server.py:24 | the split happens at the first `\|`, so later `\|` bytes stay in the payload |
| `Server.Parse` | server.py:24-25 | a parsed datagram is a `\|`-free header that parses to the returned number, then `\|`, then the returned payload |
| `Server.Step` | server.py:20-37 | the loop ends exactly on `EOF`; an ACK is sent exactly for well-formed datagrams and carries the pre-step `expected_seq`; `expected_seq` moves by +1 exactly when the datagram carries it, and the file then grows by that payload; otherwise the file is unchanged |
| `Server.EofEndsSession` | server.py:21-22 | `EOF` ends the loop with no ACK and no state change |
| `Server.NoBarIgnored` | server.py:23-28 | a datagram without `\|`, other than `EOF`, is ignored: no ACK and no state change |
| `Server.BadHeaderIgnored` | server.py:25-28 | a header that is not a number makes the datagram be ignored |
| `Server.InOrderAccepted` | server.py:29-32 | the datagram numbered `expected_seq` has its payload written verbatim, advances the counter by one, and is acknowledged with the text of the number accepted |
| `Server.OutOfOrderDropped` | server.py:33-37 | any other number is dropped and acknowledged with the current `expected_seq` |
| `Server.Run` | server.py:19-37 | the loop ends exactly if an `EOF` arrives, and otherwise reads every datagram; `expected_seq` never decreases and the file only grows |
| `Server.RunReadsUpToMarker` | server.py:19-22 | a loop that ended has read exactly the datagrams up to and including the first `EOF` |
| `Server.RunAccepts` | server.py:29-32 | during a run, the datagram numbered `expected_seq` is written and acknowledged with its number |
| `Server.RunStopsAtEof` | server.py:21-22 | datagrams after the first `EOF` are not read and change nothing |
| `Server.RunPrefixMonotone` | server.py:29-32 | over longer inputs `expected_seq` never decreases; written bytes and sent ACKs are only appended to, never rewritten |
| `Server.OneAckPerWellFormed` | server.py:29-37 | exactly one ACK per well-formed datagram read |
| `Server.AcksMonotone` | server.py:31-35 | ACK numbers lie between the initial and final `expected_seq` and never decrease |
| `Server.RunWritesAcceptedInOrder` | server.py:17-32 | for datagrams without `EOF`, the file equals the payloads of datagrams numbered 0..`expected_seq`-1, in order and each once; each is the first datagram with its number to arrive after its predecessor was accepted, and none after the last carries the next number |
| `Server.RunWritesAcceptedUpToMarker` | server.py:17-32 | for any datagrams, the file holds exactly the accepted payloads, in order and each once, among the datagrams read before the first `EOF` |
| `Server.Serve` | server.py:13-18 | a session opens exactly when a first datagram has arrived, is valid UTF-8, and names something `Server.Openable` accepts; the file name encodes back to that datagram; the error is `UndecodableName` exactly when no name encodes to it; the loop reads only datagrams after it (the exact run is stated by `Server.ServeNamed`) |
| `Server.ServeNamed` | server.py:13-18 | a first datagram that encodes a name opens that name when `open` accepts it, and fails with `UnopenableName` otherwise; the loop then runs from the initial state on the remaining datagrams |
| `Server.EmptyNameFails` | server.py:13-18 | an empty first datagram names the empty file, which `open` refuses, so the session fails |
| `Server.NulNameFails` | server.py:13-18 | any first datagram holding a NUL byte fails the session: with `UnopenableName` if it is UTF-8 (the name holds NUL, `ValueError`), with `UndecodableName` otherwise |
| `Server.SlashNameFails` | server.py:13-18 | any first datagram ending in `/` fails the session: with `UnopenableName` if it is UTF-8 (the name ends in `/`), with `UndecodableName` otherwise |
| `Server.DotNamesFail` | server.py:13-18 | the first datagrams `.` and `..` name directories, which `open` refuses, so the session fails |
| `Client.Chunks` | client.py:27 | the results of `file.read(4096)` until one is empty: none for an empty file, otherwise at least one and never more than there are bytes (their exact contents are stated by the lemmas below) |
| `Client.ChunkAt` | client.py:27 | chunk `i` is the file slice starting at `i*4096`, of at most 4096 bytes |
| `Client.ChunksJoin` | client.py:27-28 | joining the chunks gives back the file |
| `Client.ChunksSized` | client.py:27 | every chunk has 1 to 4096 bytes and all but the last have exactly 4096 |
| `Client.ChunksCount` | client.py:27 | there are ⌈len/4096⌉ chunks, and none for an empty file |
| `Client.ChunksUnique` | client.py:27 | any split of the file with those size properties is the chunk list |
| `Client.ChunkIsMarker` | client.py:27-28 | chunk `i` equals `EOF` exactly when it is the last chunk, the file length is 3 mod 4096 and the file ends in `EOF` |
| `Client.MarkerTailIsChunk` | client.py:27-28 | every file of length 3 mod 4096 that ends in `EOF` has a last chunk equal to `EOF` |
| `Client.ReadChunks` | client.py:26-28 | the loop of reads returns the chunk list, whose join is the file and whose chunks hold 1 to 4096 bytes |
| `Client.Messages` | client.py:24-31 | the datagrams sent are: the name, which decodes back to the name; then exactly the chunk list, which joins to the file, with every chunk but the last holding 4096 bytes and the last 1 to 4096; then `EOF` last |
| `Client.FramedChunks` | client.py:28 | the corrected chunks: chunk `i` is preceded by the text of `i` and `\|` |
| `Client.FramedMessages` | client.py:24-31 | the corrected sending order: the name, then chunk `i` framed by the text of `i` and `\|` (so each contains `\|` and differs from `EOF`), then `EOF` |
| `Transfer.RunIgnoresUnframed` | server.py:24-28 | datagrams without `\|`, other than `EOF`, leave the loop in its initial state with no ACKs |
| `Transfer.ChunksWithoutBar` | client.py:27 | a file without `\|` has chunks without `\|` |
| `Transfer.ServeMessages` | client.py:24-31 | a session fed the client's datagrams opens the client's name when `open` accepts it and runs the loop on the chunks and `EOF` |
| `Transfer.RawChunksAreDropped` | client.py:28 | as written, a file without `\|` whose last chunk is not `EOF` reaches the server as an empty file with no ACKs, the loop reading every chunk and the client's `EOF` (for a name `open` accepts; otherwise the session fails) |
| `Transfer.MarkerChunkRun` | server.py:21-28 | as written, the chunks of a `\|`-free file whose last chunk is `EOF` end the loop at that chunk, in its initial state with no ACK |
| `Transfer.RawFileArrivesEmpty` | client.py:28 | as written, every file without `\|` reaches the server as an empty file with no ACKs, whether or not its last chunk is `EOF` (for a name `open` accepts; otherwise the session fails) |
| `Transfer.RawTransferLosesFile` | client.py:28 | as written, the file `hi` arrives empty under any name `open` accepts |
| `Transfer.EofFileEndsSessionEarly` | server.py:21-22 | as written, the file `EOF` ends the session at its only chunk, for any name `open` accepts; the client's own `EOF` is left unread |
| `Transfer.RunFramed` | server.py:29-32 | framed chunks are all accepted in order; the file is their join and the ACKs are `0`..`k-1` |
| `Transfer.FramedTransferDelivers` | client.py:24-31 | with framed chunks, an in-order, lossless channel delivers the file byte for byte under any client name `open` accepts, with ACKs `0`..`k-1`, ending at the client's `EOF` |

## Left out

- Sockets, addresses, `recvfrom`/`sendto` and the endless outer loop (server.py:7-11, client.py:22, 33) are I/O. One session is a fold over a list of datagrams, and an ACK is a value in a list.
- Truncation of received datagrams to `BUFFER_SIZE` bytes (server.py:13) and `BUFFER_SIZE + 20` bytes (server.py:20) is transport behaviour and is not modelled.
- Opening, writing and reading real files (server.py:18, client.py:26) are not modelled. The destination file is the byte string written so far, and the source file is a byte string. `Client.Chunks` assumes that reads on a regular file return full 4096-byte buffers until the end of the file.
- Command-line parsing, path resolution, the existence check and its missing early exit (client.py:12-19) are library and CLI code. `os.path.basename` (client.py:20) is not modelled: the name is a parameter.
- `Decimal.ParseInt`: stated weaker than Python's `int()`. It accepts only an optional sign followed by ASCII digits. It rejects surrounding whitespace, `_` separators and non-ASCII Unicode digits, all of which `int()` accepts.
- `Server.Openable`: stands in for `open(filename, "wb")` (server.py:18) and decides from the name alone. It refuses the names every file system refuses: the empty name (`FileNotFoundError`), a name holding NUL (`ValueError`), and `.`, `..` and any name ending in `/` (`IsADirectoryError` or another `OSError`). Every other name is treated as openable. Refusals that depend on what the file system holds are not modelled: a missing parent directory, no permission, a name that is an existing directory, or a name component too long.
- `Client.Messages`: a name that Python holds with lone surrogates cannot be encoded by the client (`UnicodeEncodeError`). Dafny strings hold only scalar values, so that failure is not modelled.
- Printing (server.py:9, 15, 27, 34, 39; client.py:19, 32) is logging only.
- There is no checksum, sliding window, retransmission, handshake or peer table in the code, so none is modelled.

## Findings

| source | as written | input that shows it | evidently intended | confidence | as-written member | corrected member |
|---|---|---|---|---|---|---|
| client.py:28 | each chunk is sent raw, with no `seq\|` header, but server.py:24-25 drops a datagram unless it starts with a number and `\|` | the two-byte file `hi`: the server writes an empty file | send chunk `i` as the text of `i`, then `\|`, then the chunk, so every chunk is accepted in order | high; not executed | `Transfer.RawTransferLosesFile` | `Transfer.FramedTransferDelivers` |
| client.py:28 | a raw chunk equal to `EOF` is taken by server.py:21 as the end of the session | the three-byte file `EOF`: the session ends at that chunk with nothing written, and the client's own `EOF` is left for the next session as a file name | a framed chunk (`0\|EOF`) is never equal to the marker | high; not executed | `Transfer.EofFileEndsSessionEarly` | `Transfer.FramedTransferDelivers` |

=== FILE: client.dfy ===
/** The sender of client.py: `main` sends the file name, then the file in
    reads of at most `BufferSize` bytes, one datagram each, then the `EOF`
    marker (lines 24-31). The file is given as its bytes and the datagrams
    sent are returned as a list, in sending order. */
module Client {
  import opened Wire
  import Decimal
  import Utf8

  /** client.py:9, the most bytes one read of the file returns. */
  const BufferSize: nat := 4096

  function Min(a: nat, b: nat): nat
  {
    if a <= b then a else b
  }

  /** The results of `file.read(BufferSize)` until one returns nothing
      (line 27), for a regular file: every read returns `BufferSize` bytes
      unless fewer remain. */
  function Chunks(file: seq<byte>): (r: seq<seq<byte>>)
    ensures r == [] <==> file == []
    ensures |r| <= |file|
    decreases |file|
  {
    if file == [] then
      []
    else
      var k := Min(|file|, BufferSize);
      [file[..k]] + Chunks(file[k..])
  }

  /** The `i`-th chunk is the `i`-th `BufferSize`-aligned slice of the file. */
  lemma {:induction false} ChunkAt(file: seq<byte>, i: nat)
    requires i < |Chunks(file)|
    ensures i * BufferSize < |file|
    ensures Chunks(file)[i] == file[i * BufferSize .. Min((i + 1) * BufferSize, |file|)]
    decreases i
  {
    var k := Min(|file|, BufferSize);
    var rest := file[k..];
    if i > 0 {
      ChunkAt(rest, i - 1);
      var lo := (i - 1) * BufferSize;
      var hi := Min(i * BufferSize, |rest|);
      assert Chunks(file)[i] == rest[lo..hi];
      assert k == BufferSize;
      assert lo + k == i * BufferSize;
      assert hi + k == Min((i + 1) * BufferSize, |file|);
      assert forall j :: 0 <= j < hi - lo ==> rest[lo..hi][j] == file[lo + k + j];
    }
  }

  /** Joining the chunks gives back the file. */
  lemma {:induction false} ChunksJoin(file: seq<byte>)
    ensures Concat(Chunks(file)) == file
    decreases |file|
  {
    if file != [] {
      var k := Min(|file|, BufferSize);
      ChunksJoin(file[k..]);
      assert ([file[..k]] + Chunks(file[k..]))[1..] == Chunks(file[k..]);
      assert file == file[..k] + file[k..];
    }
  }

  /** Every chunk is non-empty and at most `BufferSize` bytes; all but the
      last are exactly `BufferSize` bytes. */
  lemma {:induction false} ChunksSized(file: seq<byte>)
    ensures forall i :: 0 <= i < |Chunks(file)| ==> 0 < |Chunks(file)[i]| <= BufferSize
    ensures forall i :: 0 <= i < |Chunks(file)| - 1 ==> |Chunks(file)[i]| == BufferSize
    decreases |file|
  {
    if file != [] {
      var k := Min(|file|, BufferSize);
      ChunksSized(file[k..]);
      var cs := Chunks(file);
      assert forall i :: 0 < i < |cs| ==> cs[i] == Chunks(file[k..])[i - 1];
      if k < BufferSize {
        assert file[k..] == [];
      }
    }
  }

  /** There are ceil(|file| / `BufferSize`) chunks, none for an empty file. */
  lemma {:induction false} ChunksCount(file: seq<byte>)
    ensures |Chunks(file)| == (|file| + BufferSize - 1) / BufferSize
    decreases |file|
  {
    if file != [] {
      var k := Min(|file|, BufferSize);
      ChunksCount(file[k..]);
    }
  }

  /** The chunks are the only split of the file into non-empty pieces of at
      most `BufferSize` bytes with all but the last full: the read loop has
      no other possible outcome. */
  lemma {:induction false} ChunksUnique(file: seq<byte>, cs: seq<seq<byte>>)
    requires Concat(cs) == file
    requires forall i :: 0 <= i < |cs| ==> 0 < |cs[i]| <= BufferSize
    requires forall i :: 0 <= i < |cs| - 1 ==> |cs[i]| == BufferSize
    ensures cs == Chunks(file)
    decreases |cs|
  {
    if cs != [] {
      var k := Min(|file|, BufferSize);
      var tail := cs[1..];
      assert file == cs[0] + Concat(tail);
      if |cs| == 1 {
        assert tail == [];
        assert file == cs[0];
      } else {
        assert |cs[0]| == BufferSize;
        assert forall i :: 0 <= i < |tail| ==> tail[i] == cs[i + 1];
        assert |Concat(tail)| > 0 by {
          assert Concat(tail) == tail[0] + Concat(tail[1..]);
        }
      }
      assert cs[0] == file[..k] && Concat(tail) == file[k..];
      ChunksUnique(file[k..], tail);
      assert cs == [cs[0]] + tail;
    }
  }

  /** Chunk `i` equals the `EOF` marker exactly when it is the last chunk
      of a file whose length is 3 more than a multiple of `BufferSize` and
      which ends in the bytes `EOF`. */
  lemma ChunkIsMarker(file: seq<byte>, i: nat)
    requires i < |Chunks(file)|
    ensures Chunks(file)[i] == Eof <==>
      i == |Chunks(file)| - 1 && |file| % BufferSize == 3 && EndsWith(file, Eof)
  {
    if Chunks(file)[i] == Eof {
      MarkerChunkIsLast(file, i);
    }
    if i == |Chunks(file)| - 1 && |file| % BufferSize == 3 && EndsWith(file, Eof) {
      MarkerTailIsChunk(file);
    }
  }

  lemma MarkerChunkIsLast(file: seq<byte>, i: nat)
    requires i < |Chunks(file)| && Chunks(file)[i] == Eof
    ensures i == |Chunks(file)| - 1 && |file| % BufferSize == 3 && EndsWith(file, Eof)
  {
    var cs := Chunks(file);
    ChunkAt(file, i);
    ChunksSized(file);
    var start := i * BufferSize;
    var end := Min((i + 1) * BufferSize, |file|);
    assert cs[i] == file[start..end];
    ShortSliceEndsFile(file, i, end);
  }

  lemma ShortSliceEndsFile(file: seq<byte>, i: nat, end: nat)
    requires i * BufferSize <= end == Min((i + 1) * BufferSize, |file|)
    requires file[i * BufferSize..end] == Eof
    ensures |file| % BufferSize == 3 && EndsWith(file, Eof)
  {
    var start := i * BufferSize;
    assert (i + 1) * BufferSize == start + BufferSize;
    assert end == start + 3;
    assert end == |file|;
    assert (start + 3) % BufferSize == 3;
  }

  /** Every file whose length is 3 more than a multiple of `BufferSize` and
      which ends in `EOF` has a last chunk equal to the marker. */
  lemma MarkerTailIsChunk(file: seq<byte>)
    requires |file| % BufferSize == 3 && EndsWith(file, Eof)
    ensures Chunks(file)[|Chunks(file)| - 1] == Eof
  {
    var cs := Chunks(file);
    ChunksCount(file);
    var i := |file| / BufferSize;
    assert |file| == i * BufferSize + 3;
    assert |cs| == i + 1;
    ChunkAt(file, i);
    assert Min((i + 1) * BufferSize, |file|) == |file|;
    assert cs[i] == file[|file| - 3..];
  }

  /** The read loop of lines 27-28, read by read. */
  method ReadChunks(file: seq<byte>) returns (chunks: seq<seq<byte>>)
    ensures chunks == Chunks(file)
    ensures Concat(chunks) == file
    ensures forall i :: 0 <= i < |chunks| ==> 0 < |chunks[i]| <= BufferSize
  {
    chunks := [];
    var pos := 0;
    while pos < |file|
      invariant 0 <= pos <= |file|
      invariant chunks + Chunks(file[pos..]) == Chunks(file)
      decreases |file| - pos
    {
      var chunk := file[pos .. Min(pos + BufferSize, |file|)];
      assert file[pos..][..Min(|file| - pos, BufferSize)] == chunk;
      assert file[pos..][Min(|file| - pos, BufferSize)..] == file[pos + |chunk|..];
      assert Chunks(file[pos..]) == [chunk] + Chunks(file[pos + |chunk|..]);
      chunks := chunks + [chunk];
      pos := pos + |chunk|;
    }
    assert file[pos..] == [];
    ChunksJoin(file);
    ChunksSized(file);
  }

  /** The datagrams `main` sends for the file `file` named `name`, in order
      (lines 24, 27-28 and 31). */
  function Messages(name: string, file: seq<byte>): (r: seq<seq<byte>>)
    ensures |r| == |Chunks(file)| + 2
    ensures Utf8.Decode(r[0]) == Some(name)
    ensures Concat(r[1..|r| - 1]) == file
    ensures forall i :: 1 <= i < |r| - 1 ==> 0 < |r[i]| <= BufferSize
    ensures forall i :: 1 <= i < |r| - 2 ==> |r[i]| == BufferSize
    ensures r[1..|r| - 1] == Chunks(file)
    ensures r[|r| - 1] == Eof
  {
    var r := [Utf8.Encode(name)] + Chunks(file) + [Eof];
    Utf8.DecodeEncode(name);
    ChunksJoin(file);
    ChunksSized(file);
    assert r[1..|r| - 1] == Chunks(file);
    r
  }

  /** The `i`-th chunk with the header the receiver parses: the decimal text
      of `i` and a `|`. */
  function Frame(i: nat, chunk: seq<byte>): seq<byte>
  {
    Decimal.Text(i) + [Bar] + chunk
  }

  /** The chunks `cs`, each framed by its position. */
  function FramedChunks(cs: seq<seq<byte>>): (r: seq<seq<byte>>)
    ensures |r| == |cs|
    ensures forall i :: 0 <= i < |cs| ==> r[i] == Frame(i, cs[i])
  {
    if cs == [] then [] else FramedChunks(cs[..|cs| - 1]) + [Frame(|cs| - 1, cs[|cs| - 1])]
  }

  /** The sending order with every chunk framed by its sequence number, the
      format server.py:24-25 reads. */
  function FramedMessages(name: string, file: seq<byte>): (r: seq<seq<byte>>)
    ensures |r| == |Chunks(file)| + 2
    ensures Utf8.Decode(r[0]) == Some(name)
    ensures forall i :: 1 <= i < |r| - 1 ==> Bar in r[i] && r[i] != Eof
    ensures forall i :: 1 <= i < |r| - 1 ==> r[i] == Frame(i - 1, Chunks(file)[i - 1])
    ensures r[|r| - 1] == Eof
  {
    var cs := Chunks(file);
    var r := [Utf8.Encode(name)] + FramedChunks(cs) + [Eof];
    Utf8.DecodeEncode(name);
    forall i | 1 <= i < |r| - 1
      ensures Bar in r[i] && r[i] != Eof
    {
      assert r[i] == Frame(i - 1, cs[i - 1]);
      assert r[i][|Decimal.Text(i - 1)|] == Bar;
    }
    r
  }
}

=== FILE: decimal.dfy ===
/** The decimal text used on the wire: the receiver's acknowledgements are
    `str(n).encode()` (server.py:31, 35) and a data header is read back with
    `int(header.decode())` (server.py:25). */
module Decimal {
  import opened Wire

  const Minus: byte := 0x2D
  const Plus: byte := 0x2B
  const Zero: byte := 0x30

  predicate IsDigit(b: byte)
  {
    Zero <= b <= Zero + 9
  }

  predicate AllDigits(s: seq<byte>)
  {
    forall i :: 0 <= i < |s| ==> IsDigit(s[i])
  }

  /** The number spelled by a string of decimal digits, most significant first. */
  function Value(s: seq<byte>): nat
    requires AllDigits(s)
  {
    if s == [] then 0 else Value(s[..|s| - 1]) * 10 + (s[|s| - 1] - Zero)
  }

  /** `str(n).encode()` for a non-negative `n`: the digits of `n` without
      leading zeros, which the header parser reads back as `n`. */
  function Text(n: nat): (r: seq<byte>)
    ensures |r| > 0 && AllDigits(r)
    ensures r[0] == Zero ==> n == 0
    ensures Bar !in r && r != Eof
    ensures Value(r) == n
    ensures ParseInt(r) == Some(n)
  {
    if n < 10 then
      [Zero + n]
    else
      var front := Text(n / 10);
      var r := front + [Zero + n % 10];
      assert r[..|r| - 1] == front;
      assert r[0] == front[0];
      r
  }

  /** Python's `int()` applied to the decoded header, restricted to the
      shapes the wire uses: an optional sign followed by one or more ASCII
      decimal digits (leading zeros allowed). Anything else is `None`, the
      receiver's "malformed" case. */
  function ParseInt(s: seq<byte>): (r: Option<int>)
    ensures r.Some? ==> |s| > 0 && Bar !in s
  {
    if |s| > 0 && (s[0] == Minus || s[0] == Plus) then
      var digits := s[1..];
      if |digits| > 0 && AllDigits(digits) then
        var magnitude: int := Value(digits);
        Some(if s[0] == Minus then -magnitude else magnitude)
      else
        None
    else if |s| > 0 && AllDigits(s) then
      Some(Value(s))
    else
      None
  }

  /** A digit string that does not start with `0` spells a positive number. */
  lemma {:induction false} LeadingNonZeroIsPositive(s: seq<byte>)
    requires |s| > 0 && AllDigits(s) && s[0] != Zero
    ensures Value(s) > 0
  {
    if |s| > 1 {
      LeadingNonZeroIsPositive(s[..|s| - 1]);
    }
  }

  /** Conversely to the round trip in `Text`, every canonical digit string
      (no leading zero unless it is `0` itself) is the text of the number it
      parses to, so `Text` and `ParseInt` are inverse on canonical input. */
  lemma {:induction false} CanonicalDigitsAreText(s: seq<byte>)
    requires |s| > 0 && AllDigits(s)
    requires s[0] != Zero || |s| == 1
    ensures ParseInt(s) == Some(Value(s))
    ensures Text(Value(s)) == s
  {
    if |s| > 1 {
      var front := s[..|s| - 1];
      LeadingNonZeroIsPositive(front);
      CanonicalDigitsAreText(front);
      var n := Value(s);
      assert n / 10 == Value(front) && n % 10 == s[|s| - 1] - Zero;
      assert s == front + [s[|s| - 1]];
    }
  }
}

=== FILE: server.dfy ===
/** The receiver of server.py: one session reads the file name from the
    first datagram (lines 13-14) and then runs the inner loop (lines 17-37)
    over the following datagrams until the `EOF` marker. Sockets, the
    destination file and the printing are replaced by values: the file is
    the byte string written so far and the ACKs sent are collected in a list. */
module Server {
  import opened Wire
  import Decimal
  import Utf8

  /** What the inner loop carries from one datagram to the next:
      `expected_seq` and the bytes written to the destination file so far. */
  datatype Receiver = Receiver(expected: nat, out: seq<byte>)

  /** The outcome of handling one datagram: the new state, the ACK datagram
      sent back (if any) and whether the loop ends. */
  datatype StepResult = StepResult(state: Receiver, ack: Option<seq<byte>>, done: bool)

  /** The state at server.py:17, before the destination file has been written. */
  const Initial := Receiver(0, [])

  /** `packet.split(b"|", 1)`: the bytes before the first `|` and the bytes
      after it, or `None` when there is no `|` (the unpacking then raises). */
  function SplitAtBar(p: seq<byte>): (r: Option<(seq<byte>, seq<byte>)>)
    ensures r.None? <==> Bar !in p
    ensures r.Some? ==> Bar !in r.value.0 && p == r.value.0 + [Bar] + r.value.1
  {
    if p == [] then
      None
    else if p[0] == Bar then
      assert p == [] + [Bar] + p[1..];
      Some(([], p[1..]))
    else
      match SplitAtBar(p[1..])
      case None => None
      case Some((header, content)) =>
        assert p == [p[0]] + header + [Bar] + content;
        Some(([p[0]] + header, content))
  }

  /** The split at the first `|` is the only split whose header holds no `|`:
      every later `|` belongs to the payload. */
  lemma {:induction false} SplitAtFirstBar(header: seq<byte>, content: seq<byte>)
    requires Bar !in header
    ensures SplitAtBar(header + [Bar] + content) == Some((header, content))
  {
    var p := header + [Bar] + content;
    if header == [] {
      assert p[0] == Bar && p[1..] == content;
    } else {
      assert p[0] == header[0] && p[1..] == header[1..] + [Bar] + content;
      SplitAtFirstBar(header[1..], content);
      assert [header[0]] + header[1..] == header;
    }
  }

  /** Lines 24-25: the sequence number in the header and the payload after
      the first `|`, or `None` for a malformed datagram. */
  function Parse(p: seq<byte>): (r: Option<(int, seq<byte>)>)
    ensures r.Some? ==> exists header :: p == header + [Bar] + r.value.1 && Bar !in header && Decimal.ParseInt(header) == Some(r.value.0)
  {
    match SplitAtBar(p)
    case None => None
    case Some((header, content)) =>
      match Decimal.ParseInt(header)
      case None => None
      case Some(n) => Some((n, content))
  }

  /** `p` is a datagram the loop parses: not the marker, and a header of a number before a `|`. */
  predicate WellFormed(p: seq<byte>)
  {
    p != Eof && Parse(p).Some?
  }

  /** `p` is a well-formed datagram numbered `n`. */
  predicate Carries(p: seq<byte>, n: int)
  {
    Parse(p).Some? && Parse(p).value.0 == n
  }

  /** The payload of a well-formed datagram, empty for any other. */
  function Content(p: seq<byte>): seq<byte>
  {
    match Parse(p)
    case Some((_, content)) => content
    case None => []
  }

  /** One iteration of the inner loop (lines 20-37) on the datagram `p`. */
  function Step(s: Receiver, p: seq<byte>): (r: StepResult)
    ensures r.done <==> p == Eof
    ensures r.ack.Some? <==> WellFormed(p)
    ensures r.state.expected == s.expected || r.state.expected == s.expected + 1
    ensures r.state.expected == s.expected + 1 <==> !r.done && Carries(p, s.expected)
    ensures r.state.expected == s.expected ==> r.state.out == s.out
    ensures r.state.expected == s.expected + 1 ==> r.state.out == s.out + Content(p)
    ensures r.ack.Some? ==> Decimal.ParseInt(r.ack.value) == Some(s.expected)
  {
    if p == Eof then
      StepResult(s, None, true)
    else
      match Parse(p)
      case None => StepResult(s, None, false)
      case Some((n, content)) =>
        if n == s.expected then
          StepResult(Receiver(s.expected + 1, s.out + content), Some(Decimal.Text(s.expected)), false)
        else
          StepResult(s, Some(Decimal.Text(s.expected)), false)
  }

  /** Lines 21-22: the marker ends the loop before any parsing, with no ACK
      and nothing written. */
  lemma EofEndsSession(s: Receiver)
    ensures Step(s, Eof) == StepResult(s, None, true)
  {
  }

  /** Lines 24, 26-28: a datagram without `|` (other than the marker) is
      ignored: no state change and no ACK. */
  lemma NoBarIgnored(s: Receiver, p: seq<byte>)
    requires Bar !in p && p != Eof
    ensures Step(s, p) == StepResult(s, None, false)
  {
  }

  /** Lines 25-28: a header that is not a number makes the datagram be ignored. */
  lemma BadHeaderIgnored(s: Receiver, header: seq<byte>, content: seq<byte>)
    requires Bar !in header && Decimal.ParseInt(header).None?
    ensures Step(s, header + [Bar] + content) == StepResult(s, None, false)
  {
    SplitAtFirstBar(header, content);
    assert (header + [Bar] + content)[|header|] == Bar;
  }

  /** Lines 29-32: the datagram numbered `expected_seq` is written verbatim
      after the first `|` (further `|` bytes included), the counter moves on
      by one, and the ACK is the text of the number just accepted. */
  lemma InOrderAccepted(s: Receiver, header: seq<byte>, content: seq<byte>)
    requires Bar !in header && Decimal.ParseInt(header) == Some(s.expected as int)
    ensures Step(s, header + [Bar] + content)
         == StepResult(Receiver(s.expected + 1, s.out + content), Some(Decimal.Text(s.expected)), false)
  {
    SplitAtFirstBar(header, content);
    assert (header + [Bar] + content)[|header|] == Bar;
  }

  /** Lines 33-35: any other number is dropped and the ACK repeats the
      current `expected_seq`. */
  lemma OutOfOrderDropped(s: Receiver, header: seq<byte>, content: seq<byte>, n: int)
    requires Bar !in header && Decimal.ParseInt(header) == Some(n) && n != s.expected
    ensures Step(s, header + [Bar] + content) == StepResult(s, Some(Decimal.Text(s.expected)), false)
  {
    SplitAtFirstBar(header, content);
    assert (header + [Bar] + content)[|header|] == Bar;
  }

  /** A session's loop so far: the state, the ACKs sent in order, whether the
      marker has arrived and how many datagrams the loop has read. */
  datatype Trace = Trace(state: Receiver, acks: seq<seq<byte>>, done: bool, used: nat)

  /** The inner loop run from `s` over the datagrams `ps` in arrival order.
      It stops reading at the first marker; later datagrams are left for the
      next session. */
  function Run(s: Receiver, ps: seq<seq<byte>>): (t: Trace)
    ensures t.done <==> Eof in ps
    ensures t.used <= |ps|
    ensures !t.done ==> t.used == |ps|
    ensures s.expected <= t.state.expected
    ensures s.out <= t.state.out
    decreases |ps|
  {
    if ps == [] then
      Trace(s, [], false, 0)
    else
      var front := ps[..|ps| - 1];
      assert ps == front + [ps[|ps| - 1]];
      var prior := Run(s, front);
      if prior.done then
        prior
      else
        var r := Step(prior.state, ps[|ps| - 1]);
        Trace(r.state, prior.acks + (if r.ack.Some? then [r.ack.value] else []), r.done, |ps|)
  }

  /** A loop that ended has read exactly the datagrams up to and including
      the first marker. */
  lemma {:induction false} RunReadsUpToMarker(s: Receiver, ps: seq<seq<byte>>)
    ensures Run(s, ps).done ==> 0 < Run(s, ps).used <= |ps| && ps[Run(s, ps).used - 1] == Eof
                                && Eof !in ps[..Run(s, ps).used - 1]
    decreases |ps|
  {
    if ps != [] {
      var front := ps[..|ps| - 1];
      RunReadsUpToMarker(s, front);
      var prior := Run(s, front);
      assert front[..prior.used] == ps[..prior.used];
    }
  }

  /** One more datagram read by a loop that has not ended is one more step. */
  lemma RunSnoc(s: Receiver, ps: seq<seq<byte>>, p: seq<byte>)
    requires !Run(s, ps).done
    ensures Run(s, ps + [p]).state == Step(Run(s, ps).state, p).state
    ensures Run(s, ps + [p]).acks
         == Run(s, ps).acks + (if Step(Run(s, ps).state, p).ack.Some? then [Step(Run(s, ps).state, p).ack.value] else [])
    ensures Run(s, ps + [p]).done == (p == Eof)
    ensures Run(s, ps + [p]).used == |ps| + 1
  {
    assert (ps + [p])[..|ps|] == ps;
  }

  /** A loop that has not ended, reading the datagram numbered with its
      current `expected_seq`, writes its payload, acknowledges that number
      and expects the next. */
  lemma RunAccepts(s: Receiver, ps: seq<seq<byte>>, header: seq<byte>, content: seq<byte>)
    requires !Run(s, ps).done
    requires Bar !in header && Decimal.ParseInt(header) == Some(Run(s, ps).state.expected as int)
    ensures Run(s, ps + [header + [Bar] + content])
         == Trace(Receiver(Run(s, ps).state.expected + 1, Run(s, ps).state.out + content),
                  Run(s, ps).acks + [Decimal.Text(Run(s, ps).state.expected)], false, |ps| + 1)
  {
    var t := Run(s, ps);
    var p := header + [Bar] + content;
    InOrderAccepted(t.state, header, content);
    RunSnoc(s, ps, p);
  }

  /** The marker ends the session: what follows it is not read and changes
      nothing. */
  lemma {:induction false} RunStopsAtEof(s: Receiver, ps: seq<seq<byte>>, rest: seq<seq<byte>>)
    requires Eof !in ps
    ensures Run(s, ps + [Eof] + rest)
         == Trace(Run(s, ps).state, Run(s, ps).acks, true, |ps| + 1)
    decreases |rest|
  {
    var all := ps + [Eof] + rest;
    if rest == [] {
      assert all[..|all| - 1] == ps;
    } else {
      assert all[..|all| - 1] == ps + [Eof] + rest[..|rest| - 1];
      RunStopsAtEof(s, ps, rest[..|rest| - 1]);
    }
  }

  /** Reading more datagrams never lowers `expected_seq` and never rewrites
      bytes already written: the file only grows at its end. */
  lemma {:induction false} RunPrefixMonotone(s: Receiver, ps: seq<seq<byte>>, k: nat)
    requires k <= |ps|
    ensures Run(s, ps[..k]).state.expected <= Run(s, ps).state.expected
    ensures Run(s, ps[..k]).state.out <= Run(s, ps).state.out
    ensures Run(s, ps[..k]).acks <= Run(s, ps).acks
    decreases |ps|
  {
    if k < |ps| {
      var front := ps[..|ps| - 1];
      assert front[..k] == ps[..k];
      RunPrefixMonotone(s, front, k);
    } else {
      assert ps[..k] == ps;
    }
  }

  /** The number of well-formed datagrams in `ps`. */
  function CountWellFormed(ps: seq<seq<byte>>): nat
  {
    if ps == [] then 0
    else CountWellFormed(ps[..|ps| - 1]) + (if WellFormed(ps[|ps| - 1]) then 1 else 0)
  }

  /** Exactly one ACK is sent per well-formed datagram the session reads
      (lines 29-37), and none for malformed ones or the marker. */
  lemma {:induction false} OneAckPerWellFormed(s: Receiver, ps: seq<seq<byte>>)
    ensures |Run(s, ps).acks| == CountWellFormed(ps[..Run(s, ps).used])
    decreases |ps|
  {
    if ps != [] {
      var front := ps[..|ps| - 1];
      OneAckPerWellFormed(s, front);
      var t := Run(s, front);
      assert front[..t.used] == ps[..t.used];
      if !t.done {
        assert ps[..|ps|] == ps;
        assert ps[..|ps|][..|ps| - 1] == front[..t.used];
      }
    }
  }

  /** The number an ACK carries. */
  function AckNumber(ack: seq<byte>): int
  {
    match Decimal.ParseInt(ack)
    case Some(n) => n
    case None => -1
  }

  /** The ACK numbers never go down and stay between the starting and the
      final `expected_seq`. They are not cumulative in one sense: after an
      accept, ACK `k` says `k` was received (line 31); after a drop, it says
      `k` is awaited (line 35). */
  lemma {:induction false} AcksMonotone(s: Receiver, ps: seq<seq<byte>>)
    ensures forall i :: 0 <= i < |Run(s, ps).acks| ==>
      s.expected <= AckNumber(Run(s, ps).acks[i]) <= Run(s, ps).state.expected
    ensures forall i, j :: 0 <= i <= j < |Run(s, ps).acks| ==>
      AckNumber(Run(s, ps).acks[i]) <= AckNumber(Run(s, ps).acks[j])
    decreases |ps|
  {
    if ps != [] {
      var front := ps[..|ps| - 1];
      AcksMonotone(s, front);
    }
  }

  /** Where the `j`-th search window of `idx` starts: just after the `(j-1)`-th accepted datagram. */
  function WindowStart(idx: seq<nat>, j: nat): nat
    requires j <= |idx|
  {
    if j == 0 then 0 else idx[j - 1] + 1
  }

  /** Where the `j`-th search window of `idx` ends: at the `j`-th accepted datagram, or at the end of the `n` datagrams. */
  function WindowEnd(idx: seq<nat>, j: nat, n: nat): nat
    requires j <= |idx|
  {
    if j < |idx| then idx[j] else n
  }

  /** A reference description of what a session starting at `expected_seq`
      0 accepts from the datagrams `ps`: `idx` lists, in arrival order, the
      positions of the accepted datagrams; the `j`-th of them carries the
      number `j` and is the first datagram carrying `j` after the `(j-1)`-th;
      and no datagram after the last one carries the next number. */
  ghost predicate AcceptedAt(ps: seq<seq<byte>>, idx: seq<nat>)
  {
    && (forall j :: 0 <= j < |idx| ==> idx[j] < |ps| && Carries(ps[idx[j]], j))
    && (forall j :: 0 < j < |idx| ==> idx[j - 1] < idx[j])
    && (forall j, i :: 0 <= j <= |idx| && WindowStart(idx, j) <= i < WindowEnd(idx, j, |ps|) ==> !Carries(ps[i], j))
  }

  /** The payloads of the datagrams at the positions `idx`, joined in that order. */
  function Gather(ps: seq<seq<byte>>, idx: seq<nat>): seq<byte>
    requires forall j :: 0 <= j < |idx| ==> idx[j] < |ps|
  {
    if idx == [] then [] else Gather(ps, idx[..|idx| - 1]) + Content(ps[idx[|idx| - 1]])
  }

  lemma {:induction false} GatherPrefix(front: seq<seq<byte>>, ps: seq<seq<byte>>, idx: seq<nat>)
    requires |front| <= |ps| && front == ps[..|front|]
    requires forall j :: 0 <= j < |idx| ==> idx[j] < |front|
    ensures Gather(front, idx) == Gather(ps, idx)
    decreases |idx|
  {
    if idx != [] {
      GatherPrefix(front, ps, idx[..|idx| - 1]);
    }
  }

  /** Accepting one more datagram extends the reference description. */
  lemma AcceptedAtAccept(front: seq<seq<byte>>, p: seq<byte>, prev: seq<nat>)
    requires AcceptedAt(front, prev) && Carries(p, |prev|)
    ensures AcceptedAt(front + [p], prev + [|front|])
  {
    var ps := front + [p];
    var idx := prev + [|front|];
    var k := |prev|;
    forall j | 0 <= j < |idx|
      ensures idx[j] < |ps| && Carries(ps[idx[j]], j)
    {
      if j < k {
        assert ps[prev[j]] == front[prev[j]];
      }
    }
    forall j, i | 0 <= j <= |idx| && WindowStart(idx, j) <= i < WindowEnd(idx, j, |ps|)
      ensures !Carries(ps[i], j)
    {
      if j <= k {
        assert WindowStart(idx, j) == WindowStart(prev, j);
        assert WindowEnd(idx, j, |ps|) == WindowEnd(prev, j, |front|);
        assert ps[i] == front[i];
      }
    }
  }

  /** Dropping a datagram that does not carry the next number keeps the
      reference description. */
  lemma AcceptedAtDrop(front: seq<seq<byte>>, p: seq<byte>, prev: seq<nat>)
    requires AcceptedAt(front, prev) && !Carries(p, |prev|)
    ensures AcceptedAt(front + [p], prev)
  {
    var ps := front + [p];
    forall j | 0 <= j < |prev|
      ensures prev[j] < |ps| && Carries(ps[prev[j]], j)
    {
      assert ps[prev[j]] == front[prev[j]];
    }
    forall j, i | 0 <= j <= |prev| && WindowStart(prev, j) <= i < WindowEnd(prev, j, |ps|)
      ensures !Carries(ps[i], j)
    {
      if j < |prev| {
        assert WindowEnd(prev, j, |ps|) == WindowEnd(prev, j, |front|);
        assert ps[i] == front[i];
      } else if i < |front| {
        assert WindowEnd(prev, j, |front|) == |front|;
        assert ps[i] == front[i];
      } else {
        assert ps[i] == p;
      }
    }
  }

  /** After any datagrams (up to the marker), the file holds exactly the
      payloads of the datagrams numbered 0, 1, ..., `expected_seq` - 1, each
      once, in that order, each being the first datagram with its number to
      arrive after its predecessor was accepted (lines 29-32). */
  lemma {:induction false} RunWritesAcceptedInOrder(ps: seq<seq<byte>>) returns (idx: seq<nat>)
    requires Eof !in ps
    ensures AcceptedAt(ps, idx)
    ensures |idx| == Run(Initial, ps).state.expected
    ensures Run(Initial, ps).state.out == Gather(ps, idx)
    decreases |ps|
  {
    if ps == [] {
      idx := [];
      return;
    }
    var n := |ps| - 1;
    var front := ps[..n];
    var p := ps[n];
    assert ps == front + [p];
    assert Eof !in front;
    var prev := RunWritesAcceptedInOrder(front);
    GatherPrefix(front, ps, prev);
    if Carries(p, |prev|) {
      AcceptedAtAccept(front, p, prev);
      idx := prev + [n];
      assert idx[..|prev|] == prev;
    } else {
      AcceptedAtDrop(front, p, prev);
      idx := prev;
    }
  }

  /** The datagrams a run from `Initial` has written from: all of `ps`, or,
      once the loop has ended, those before the marker. */
  function ReadBeforeMarker(ps: seq<seq<byte>>): seq<seq<byte>>
  {
    var t := Run(Initial, ps);
    if t.done && 0 < t.used <= |ps| then ps[..t.used - 1] else ps
  }

  /** `RunWritesAcceptedInOrder` for any datagrams: the file holds exactly
      the accepted payloads among those read before the marker, if any. */
  lemma RunWritesAcceptedUpToMarker(ps: seq<seq<byte>>) returns (idx: seq<nat>)
    ensures Eof !in ReadBeforeMarker(ps)
    ensures AcceptedAt(ReadBeforeMarker(ps), idx)
    ensures |idx| == Run(Initial, ps).state.expected
    ensures Run(Initial, ps).state.out == Gather(ReadBeforeMarker(ps), idx)
  {
    var t := Run(Initial, ps);
    var read := ReadBeforeMarker(ps);
    if t.done {
      RunReadsUpToMarker(Initial, ps);
      assert ps == read + [Eof] + ps[t.used..];
      RunStopsAtEof(Initial, read, ps[t.used..]);
    }
    idx := RunWritesAcceptedInOrder(read);
  }

  /** Whether `open(filename, "wb")` at line 18 accepts the name, as far as
      the name alone decides it. It raises `FileNotFoundError` for the empty
      name, `ValueError` for a name holding a NUL character, and an `OSError`
      such as `IsADirectoryError` for `.`, `..` and any name ending in `/`,
      whatever the file system holds. */
  predicate Openable(name: string)
  {
    name != [] && '\0' !in name && name != "." && name != ".." && name[|name| - 1] != '/'
  }

  /** Why a session yields nothing: no datagram has arrived (the server still
      waits at line 13), the first one is not valid UTF-8 (line 14 raises
      `UnicodeDecodeError`), or its name cannot be opened (line 18 raises).
      Nothing catches these exceptions, so the server stops. */
  datatype ServeError = AwaitingName | UndecodableName | UnopenableName

  /** One session of the outer loop: the name the destination file is
      opened under and the run of the inner loop. */
  datatype Session = Session(filename: string, trace: Trace)

  /** Lines 13-37: the first datagram names the file, the rest go through
      the inner loop from `Initial`. */
  function Serve(msgs: seq<seq<byte>>): (r: Result<Session, ServeError>)
    ensures r.Ok? <==> |msgs| > 0 && exists name :: Utf8.Encode(name) == msgs[0] && Openable(name)
    ensures r.Ok? ==> Utf8.Encode(r.value.filename) == msgs[0] && Openable(r.value.filename)
    ensures r.Ok? ==> r.value.trace.used < |msgs|
    ensures r == Err(UndecodableName) ==> |msgs| > 0 && forall name :: Utf8.Encode(name) != msgs[0]
    ensures |msgs| > 0 && (forall name :: Utf8.Encode(name) != msgs[0]) ==> r == Err(UndecodableName)
  {
    if msgs == [] then
      Err(AwaitingName)
    else
      match Utf8.Decode(msgs[0])
      case None =>
        assert forall name :: Utf8.Encode(name) != msgs[0] by {
          forall name ensures Utf8.Encode(name) != msgs[0] {
            Utf8.DecodeIsInverse(msgs[0], name);
          }
        }
        Err(UndecodableName)
      case Some(name) =>
        assert Utf8.Encode(name) == msgs[0];
        if Openable(name) then
          Ok(Session(name, Run(Initial, msgs[1..])))
        else
          assert forall other :: Utf8.Encode(other) == msgs[0] ==> other == name by {
            forall other ensures Utf8.Encode(other) == msgs[0] ==> other == name {
              Utf8.DecodeIsInverse(msgs[0], other);
            }
          }
          assert !(forall other :: Utf8.Encode(other) != msgs[0]);
          Err(UnopenableName)
  }

  /** A session whose first datagram is an encoded name: it opens that name
      if `open` accepts it and then runs the inner loop on the rest. */
  lemma ServeNamed(name: string, rest: seq<seq<byte>>)
    ensures Serve([Utf8.Encode(name)] + rest)
         == if Openable(name) then Ok(Session(name, Run(Initial, rest))) else Err(UnopenableName)
  {
    Utf8.DecodeEncode(name);
    assert ([Utf8.Encode(name)] + rest)[1..] == rest;
  }

  /** An empty first datagram names the empty file, which `open` refuses
      (`FileNotFoundError`), so the session fails. */
  lemma EmptyNameFails(rest: seq<seq<byte>>)
    ensures Serve([[]] + rest) == Err(UnopenableName)
  {
    assert Utf8.Encode([]) == [];
    ServeNamed([], rest);
  }

  /** A first datagram holding a NUL byte fails the session: it is not
      UTF-8, or the name it decodes to holds NUL, which `open` refuses
      (`ValueError`). */
  lemma NulNameFails(b: seq<byte>, rest: seq<seq<byte>>)
    requires 0 in b
    ensures Serve([b] + rest) == if Utf8.Decode(b).Some? then Err(UnopenableName) else Err(UndecodableName)
  {
    match Utf8.Decode(b)
    case None =>
    case Some(name) =>
      Utf8.EncodeHoldsZero(name);
      ServeNamed(name, rest);
  }

  /** A first datagram ending in `/` fails the session: it is not UTF-8, or
      the name it decodes to ends in `/`, which `open` refuses. */
  lemma SlashNameFails(b: seq<byte>, rest: seq<seq<byte>>)
    requires |b| > 0 && b[|b| - 1] == 0x2F
    ensures Serve([b] + rest) == if Utf8.Decode(b).Some? then Err(UnopenableName) else Err(UndecodableName)
  {
    match Utf8.Decode(b)
    case None =>
    case Some(name) =>
      assert name != [];
      Utf8.EncodeEndsInAscii(name, 0x2F);
      ServeNamed(name, rest);
  }

  /** The names `.` and `..` are directories, which `open` refuses
      (`IsADirectoryError`), so the session fails. */
  lemma DotNamesFail(rest: seq<seq<byte>>)
    ensures Serve([[0x2E]] + rest) == Err(UnopenableName)
    ensures Serve([[0x2E, 0x2E]] + rest) == Err(UnopenableName)
  {
    assert Utf8.Encode(".") == [0x2E];
    ServeNamed(".", rest);
    assert Utf8.Encode("..") == [0x2E, 0x2E];
    ServeNamed("..", rest);
  }
}

=== FILE: transfer.dfy ===
/** The client's datagrams fed to the receiver over an in-order, lossless
    channel. As written, client.py sends its chunks without the `seq|`
    header that server.py expects; `FramedMessages` is the sending order
    with that header added, and only for it does a non-empty file arrive
    intact. */
module Transfer {
  import opened Wire
  import Decimal
  import Utf8
  import Server
  import Client

  /** The ACK texts of the numbers `0` to `n - 1`, in order. */
  function AckTexts(n: nat): seq<seq<byte>>
  {
    if n == 0 then [] else AckTexts(n - 1) + [Decimal.Text(n - 1)]
  }

  /** A datagram without `|` that is not the marker changes nothing in any
      number of steps. */
  lemma {:induction false} RunIgnoresUnframed(ps: seq<seq<byte>>)
    requires forall i :: 0 <= i < |ps| ==> Bar !in ps[i] && ps[i] != Eof
    ensures Server.Run(Server.Initial, ps) == Server.Trace(Server.Initial, [], false, |ps|)
    decreases |ps|
  {
    if ps != [] {
      var front := ps[..|ps| - 1];
      RunIgnoresUnframed(front);
      Server.NoBarIgnored(Server.Initial, ps[|ps| - 1]);
    }
  }

  /** A file without `|` has chunks without `|`. */
  lemma ChunksWithoutBar(file: seq<byte>)
    requires Bar !in file
    ensures forall i :: 0 <= i < |Client.Chunks(file)| ==> Bar !in Client.Chunks(file)[i]
  {
    var cs := Client.Chunks(file);
    forall i | 0 <= i < |cs| ensures Bar !in cs[i] {
      Client.ChunkAt(file, i);
      var piece := file[i * Client.BufferSize .. Client.Min((i + 1) * Client.BufferSize, |file|)];
      assert cs[i] == piece;
      assert forall b :: b in piece ==> b in file;
    }
  }

  /** The chunks of a file with no `|` and no chunk equal to the marker
      leave the loop at its initial state until the marker after them. */
  lemma RawChunksRun(file: seq<byte>)
    requires Bar !in file && Eof !in Client.Chunks(file)
    ensures Server.Run(Server.Initial, Client.Chunks(file) + [Eof])
         == Server.Trace(Server.Initial, [], true, |Client.Chunks(file)| + 1)
  {
    var cs := Client.Chunks(file);
    ChunksWithoutBar(file);
    assert forall i :: 0 <= i < |cs| ==> cs[i] != Eof;
    RunIgnoresUnframed(cs);
    Server.RunStopsAtEof(Server.Initial, cs, []);
    assert cs + [Eof] + [] == cs + [Eof];
  }

  /** A session fed the client's datagrams as written: it opens the client's
      name if `open` accepts it and runs the inner loop on the chunks and
      the marker. */
  lemma ServeMessages(name: string, file: seq<byte>)
    ensures Server.Serve(Client.Messages(name, file))
         == if Server.Openable(name)
            then Ok(Server.Session(name, Server.Run(Server.Initial, Client.Chunks(file) + [Eof])))
            else Err(Server.UnopenableName)
  {
    var cs := Client.Chunks(file);
    assert Client.Messages(name, file) == [Utf8.Encode(name)] + (cs + [Eof]);
    Server.ServeNamed(name, cs + [Eof]);
  }

  /** As written, a file with no `|` byte (and no chunk equal to the marker)
      is dropped whole: the session ends at the client's marker with nothing
      written and no ACK sent, because no chunk carries a header. */
  lemma RawChunksAreDropped(name: string, file: seq<byte>)
    requires Bar !in file
    requires !(|file| % Client.BufferSize == 3 && EndsWith(file, Eof))
    ensures !Server.Openable(name) ==> Server.Serve(Client.Messages(name, file)) == Err(Server.UnopenableName)
    ensures Server.Openable(name) ==> (
              Server.Serve(Client.Messages(name, file))
           == Ok(Server.Session(name, Server.Trace(Server.Initial, [], true, |Client.Chunks(file)| + 1))))
  {
    var cs := Client.Chunks(file);
    forall i | 0 <= i < |cs| ensures cs[i] != Eof {
      Client.ChunkIsMarker(file, i);
    }
    RawChunksRun(file);
    ServeMessages(name, file);
  }

  /** The chunks of a file with no `|` whose last chunk is taken for the
      marker: the loop ends there, at its initial state, with no ACK. */
  lemma MarkerChunkRun(file: seq<byte>)
    requires Bar !in file && |file| % Client.BufferSize == 3 && EndsWith(file, Eof)
    ensures Server.Run(Server.Initial, Client.Chunks(file) + [Eof])
         == Server.Trace(Server.Initial, [], true, |Client.Chunks(file)|)
  {
    var cs := Client.Chunks(file);
    Client.MarkerTailIsChunk(file);
    var front := cs[..|cs| - 1];
    assert cs == front + [Eof];
    ChunksWithoutBar(file);
    forall i | 0 <= i < |front| ensures Bar !in front[i] && front[i] != Eof {
      assert front[i] == cs[i];
      Client.ChunkIsMarker(file, i);
    }
    RunIgnoresUnframed(front);
    Server.RunStopsAtEof(Server.Initial, front, [Eof]);
  }

  /** As written, every file with no `|` byte arrives empty with no ACK
      sent, whether or not its last chunk is taken for the marker. */
  lemma RawFileArrivesEmpty(name: string, file: seq<byte>)
    requires Bar !in file
    ensures !Server.Openable(name) ==> Server.Serve(Client.Messages(name, file)) == Err(Server.UnopenableName)
    ensures Server.Openable(name) ==> Server.Serve(Client.Messages(name, file)).Ok?
    ensures Server.Openable(name) ==> Server.Serve(Client.Messages(name, file)).value.trace.state == Server.Initial
    ensures Server.Openable(name) ==> Server.Serve(Client.Messages(name, file)).value.trace.acks == []
  {
    if |file| % Client.BufferSize == 3 && EndsWith(file, Eof) {
      MarkerChunkRun(file);
      ServeMessages(name, file);
    } else {
      RawChunksAreDropped(name, file);
    }
  }

  /** A concrete instance: the two-byte file `hi` reaches the receiver as an
      empty file. */
  lemma RawTransferLosesFile(name: string)
    ensures Server.Openable(name) ==> Server.Serve(Client.Messages(name, [0x68, 0x69])).Ok?
    ensures Server.Openable(name) ==> Server.Serve(Client.Messages(name, [0x68, 0x69])).value.trace.state.out == []
  {
    var file: seq<byte> := [0x68, 0x69];
    assert Bar !in file;
    RawChunksAreDropped(name, file);
  }

  /** As written, the three-byte file `EOF` ends the session at its only
      chunk: nothing is written and the client's own marker is left unread,
      to be taken by the next session as a file name. */
  lemma EofFileEndsSessionEarly(name: string)
    ensures |Client.Messages(name, Eof)| == 3
    ensures !Server.Openable(name) ==> Server.Serve(Client.Messages(name, Eof)) == Err(Server.UnopenableName)
    ensures Server.Openable(name) ==> (
              Server.Serve(Client.Messages(name, Eof))
           == Ok(Server.Session(name, Server.Trace(Server.Initial, [], true, 1))))
  {
    var msgs := Client.Messages(name, Eof);
    Client.ChunksCount(Eof);
    Client.MarkerTailIsChunk(Eof);
    assert Client.Chunks(Eof) == [Eof];
    assert msgs == [Utf8.Encode(name)] + ([] + [Eof] + [Eof]);
    Server.RunStopsAtEof(Server.Initial, [], [Eof]);
    Server.ServeNamed(name, [] + [Eof] + [Eof]);
  }

  /** Framed chunks are accepted one after another: the file holds the
      chunks joined and the ACKs are `0` to `|cs| - 1`. */
  lemma {:induction false} RunFramed(cs: seq<seq<byte>>)
    ensures Server.Run(Server.Initial, Client.FramedChunks(cs))
         == Server.Trace(Server.Receiver(|cs|, Concat(cs)), AckTexts(|cs|), false, |cs|)
    decreases |cs|
  {
    if cs != [] {
      var n := |cs| - 1;
      var front := cs[..n];
      assert cs == front + [cs[n]];
      var ps := Client.FramedChunks(front);
      assert Client.FramedChunks(cs) == ps + [Decimal.Text(n) + [Bar] + cs[n]];
      RunFramed(front);
      Server.RunAccepts(Server.Initial, ps, Decimal.Text(n), cs[n]);
      ConcatSnoc(front, cs[n]);
    }
  }

  /** With every chunk framed by its sequence number, a lossless in-order
      channel delivers the file exactly: for a name `open` accepts, the
      session opens the file under the client's name, writes every byte in
      order, acknowledges chunk `i` with the text of `i`, and ends at the
      client's marker having read every datagram. */
  lemma FramedTransferDelivers(name: string, file: seq<byte>)
    ensures !Server.Openable(name) ==> Server.Serve(Client.FramedMessages(name, file)) == Err(Server.UnopenableName)
    ensures Server.Openable(name) ==> (
              Server.Serve(Client.FramedMessages(name, file))
           == Ok(Server.Session(name, Server.Trace(
                Server.Receiver(|Client.Chunks(file)|, file),
                AckTexts(|Client.Chunks(file)|), true, |Client.Chunks(file)| + 1))))
  {
    var cs := Client.Chunks(file);
    var msgs := Client.FramedMessages(name, file);
    var framed := Client.FramedChunks(cs);
    assert msgs == [Utf8.Encode(name)] + (framed + [Eof] + []);
    assert Eof !in framed by {
      forall i | 0 <= i < |framed| ensures framed[i] != Eof {
        assert msgs[i + 1] == framed[i];
      }
    }
    RunFramed(cs);
    Client.ChunksJoin(file);
    Server.RunStopsAtEof(Server.Initial, framed, []);
    Server.ServeNamed(name, framed + [Eof] + []);
  }
}

=== FILE: utf8.dfy ===
/** UTF-8, the codec of Python's `str.encode()` and `bytes.decode()`: the
    client encodes the file name with it (client.py:24) and the receiver
    decodes the first datagram of a session with it (server.py:14). Python
    decodes strictly, accepting exactly the well-formed byte sequences of
    table 3-7 in section 3.9 of the Unicode Standard. */
module Utf8 {
  import opened Wire

  predicate IsContinuation(b: byte)
  {
    0x80 <= b <= 0xBF
  }

  /** The one to four bytes encoding a single Unicode scalar value. */
  function EncodeChar(c: char): (r: seq<byte>)
    ensures 1 <= |r| <= 4
  {
    var n := c as int;
    if n < 0x80 then
      [n]
    else if n < 0x800 then
      [0xC0 + n / 0x40, 0x80 + n % 0x40]
    else if n < 0x1_0000 then
      [0xE0 + n / 0x1000, 0x80 + n / 0x40 % 0x40, 0x80 + n % 0x40]
    else
      [0xF0 + n / 0x4_0000, 0x80 + n / 0x1000 % 0x40, 0x80 + n / 0x40 % 0x40, 0x80 + n % 0x40]
  }

  /** `s.encode()`: the encodings of the characters of `s`, in order. */
  function Encode(s: string): (r: seq<byte>)
    ensures |s| <= |r| <= 4 * |s|
  {
    if s == [] then [] else EncodeChar(s[0]) + Encode(s[1..])
  }

  /** The scalar value a well-formed two-byte sequence encodes. */
  function Scalar2(b0: byte, b1: byte): (c: char)
    requires 0xC2 <= b0 <= 0xDF && IsContinuation(b1)
    ensures EncodeChar(c) == [b0, b1]
  {
    var n: int := (b0 - 0xC0) * 0x40 + (b1 - 0x80);
    assert n / 0x40 == b0 - 0xC0 && n % 0x40 == b1 - 0x80;
    n as char
  }

  /** The scalar value a well-formed three-byte sequence encodes; the bounds
      on the second byte exclude overlong forms and surrogates. */
  function Scalar3(b0: byte, b1: byte, b2: byte): (c: char)
    requires 0xE0 <= b0 <= 0xEF && IsContinuation(b1) && IsContinuation(b2)
    requires b0 == 0xE0 ==> 0xA0 <= b1
    requires b0 == 0xED ==> b1 <= 0x9F
    ensures EncodeChar(c) == [b0, b1, b2]
  {
    var n: int := (b0 - 0xE0) * 0x1000 + (b1 - 0x80) * 0x40 + (b2 - 0x80);
    var q: int := (b0 - 0xE0) * 0x40 + (b1 - 0x80);
    assert n / 0x40 == q && n % 0x40 == b2 - 0x80;
    assert q / 0x40 == b0 - 0xE0 && q % 0x40 == b1 - 0x80;
    assert n / 0x1000 == q / 0x40;
    n as char
  }

  /** The scalar value a well-formed four-byte sequence encodes; the bounds
      on the second byte exclude overlong forms and values above U+10FFFF. */
  function Scalar4(b0: byte, b1: byte, b2: byte, b3: byte): (c: char)
    requires 0xF0 <= b0 <= 0xF4 && IsContinuation(b1) && IsContinuation(b2) && IsContinuation(b3)
    requires b0 == 0xF0 ==> 0x90 <= b1
    requires b0 == 0xF4 ==> b1 <= 0x8F
    ensures EncodeChar(c) == [b0, b1, b2, b3]
  {
    var n: int := (b0 - 0xF0) * 0x4_0000 + (b1 - 0x80) * 0x1000 + (b2 - 0x80) * 0x40 + (b3 - 0x80);
    var q: int := (b0 - 0xF0) * 0x1000 + (b1 - 0x80) * 0x40 + (b2 - 0x80);
    var q2: int := (b0 - 0xF0) * 0x40 + (b1 - 0x80);
    assert n / 0x40 == q && n % 0x40 == b3 - 0x80;
    assert q / 0x40 == q2 && q % 0x40 == b2 - 0x80;
    assert q2 / 0x40 == b0 - 0xF0 && q2 % 0x40 == b1 - 0x80;
    assert n / 0x1000 == q2;
    assert n / 0x4_0000 == q2 / 0x40;
    n as char
  }

  /** The scalar value at the head of `s` and the number of bytes encoding
      it, when `s` starts with a well-formed sequence; `None` otherwise. */
  function DecodeFirst(s: seq<byte>): (r: Option<(char, nat)>)
    ensures r.Some? ==> 1 <= r.value.1 <= |s| && s[..r.value.1] == EncodeChar(r.value.0)
  {
    if |s| == 0 then
      None
    else if s[0] < 0x80 then
      Some((s[0] as char, 1))
    else if 0xC2 <= s[0] <= 0xDF then
      if |s| >= 2 && IsContinuation(s[1]) then
        assert s[..2] == [s[0], s[1]];
        Some((Scalar2(s[0], s[1]), 2))
      else
        None
    else if 0xE0 <= s[0] <= 0xEF then
      var lo := if s[0] == 0xE0 then 0xA0 else 0x80;
      var hi := if s[0] == 0xED then 0x9F else 0xBF;
      if |s| >= 3 && lo <= s[1] <= hi && IsContinuation(s[2]) then
        assert s[..3] == [s[0], s[1], s[2]];
        Some((Scalar3(s[0], s[1], s[2]), 3))
      else
        None
    else if 0xF0 <= s[0] <= 0xF4 then
      var lo := if s[0] == 0xF0 then 0x90 else 0x80;
      var hi := if s[0] == 0xF4 then 0x8F else 0xBF;
      if |s| >= 4 && lo <= s[1] <= hi && IsContinuation(s[2]) && IsContinuation(s[3]) then
        assert s[..4] == [s[0], s[1], s[2], s[3]];
        Some((Scalar4(s[0], s[1], s[2], s[3]), 4))
      else
        None
    else
      None
  }

  /** `b.decode()`: the string `b` encodes, or `None` where Python raises
      `UnicodeDecodeError`. Only the string that encodes to `b` is returned. */
  function Decode(b: seq<byte>): (r: Option<string>)
    ensures r.Some? ==> Encode(r.value) == b
    decreases |b|
  {
    if b == [] then
      Some([])
    else
      match DecodeFirst(b)
      case None => None
      case Some((c, k)) =>
        match Decode(b[k..])
        case None => None
        case Some(rest) =>
          assert ([c] + rest)[1..] == rest;
          assert Encode([c] + rest) == EncodeChar(c) + Encode(rest);
          assert b == b[..k] + b[k..];
          Some([c] + rest)
  }

  /** The decoder recognises the encoding of every scalar value, whatever follows it. */
  lemma DecodeFirstEncodeChar(c: char, rest: seq<byte>)
    ensures DecodeFirst(EncodeChar(c) + rest) == Some((c, |EncodeChar(c)|))
  {
    var n := c as int;
    if n < 0x80 {
    } else if n < 0x800 {
      DecodeTwo(c, rest);
    } else if n < 0x1_0000 {
      DecodeThree(c, rest);
    } else {
      DecodeFour(c, rest);
    }
  }

  lemma DecodeTwo(c: char, rest: seq<byte>)
    requires 0x80 <= c as int < 0x800
    ensures DecodeFirst(EncodeChar(c) + rest) == Some((c, 2))
  {
    var n := c as int;
    var s := EncodeChar(c) + rest;
    assert s[0] == 0xC0 + n / 0x40 && s[1] == 0x80 + n % 0x40;
    assert (s[0] as int - 0xC0) * 0x40 + (s[1] as int - 0x80) == n;
  }

  lemma DecodeThree(c: char, rest: seq<byte>)
    requires 0x800 <= c as int < 0x1_0000
    ensures DecodeFirst(EncodeChar(c) + rest) == Some((c, 3))
  {
    var n := c as int;
    var s := EncodeChar(c) + rest;
    var q := n / 0x40;
    assert n == q * 0x40 + n % 0x40;
    assert q == (q / 0x40) * 0x40 + q % 0x40;
    assert n / 0x1000 == q / 0x40;
    assert s[0] == 0xE0 + q / 0x40 && s[1] == 0x80 + q % 0x40 && s[2] == 0x80 + n % 0x40;
    assert (s[0] as int - 0xE0) * 0x1000 + (s[1] as int - 0x80) * 0x40 + (s[2] as int - 0x80) == n;
  }

  lemma DecodeFour(c: char, rest: seq<byte>)
    requires 0x1_0000 <= c as int
    ensures DecodeFirst(EncodeChar(c) + rest) == Some((c, 4))
  {
    var n := c as int;
    var s := EncodeChar(c) + rest;
    var q := n / 0x40;
    var q2 := n / 0x1000;
    assert n == q * 0x40 + n % 0x40;
    assert q == (q / 0x40) * 0x40 + q % 0x40;
    assert q2 == q / 0x40;
    assert q2 == (q2 / 0x40) * 0x40 + q2 % 0x40;
    assert n / 0x4_0000 == q2 / 0x40;
    assert s[0] == 0xF0 + q2 / 0x40 && s[1] == 0x80 + q2 % 0x40;
    assert s[2] == 0x80 + q % 0x40 && s[3] == 0x80 + n % 0x40;
    assert (s[0] as int - 0xF0) * 0x4_0000 + (s[1] as int - 0x80) * 0x1000 + (s[2] as int - 0x80) * 0x40 + (s[3] as int - 0x80) == n;
  }

  /** Decoding undoes encoding: the name the client sends is the name the
      receiver reads. */
  lemma {:induction false} DecodeEncode(s: string)
    ensures Decode(Encode(s)) == Some(s)
  {
    if s != [] {
      var e := EncodeChar(s[0]);
      DecodeFirstEncodeChar(s[0], Encode(s[1..]));
      assert (e + Encode(s[1..]))[|e|..] == Encode(s[1..]);
      DecodeEncode(s[1..]);
      assert [s[0]] + s[1..] == s;
    }
  }

  /** A zero byte in an encoding comes only from the NUL character: every
      byte of a longer encoding is at least `0x80`. */
  lemma {:induction false} EncodeHoldsZero(s: string)
    ensures 0 in Encode(s) <==> '\0' in s
    decreases |s|
  {
    if s != [] {
      EncodeHoldsZero(s[1..]);
      assert s == [s[0]] + s[1..];
      assert 0 in EncodeChar(s[0]) <==> s[0] == '\0';
    }
  }

  /** An encoding ends in an ASCII byte exactly when the string ends in that
      character: the last byte of a longer encoding is a continuation byte. */
  lemma {:induction false} EncodeEndsInAscii(s: string, b: byte)
    requires s != [] && b < 0x80
    ensures |Encode(s)| > 0
    ensures Encode(s)[|Encode(s)| - 1] == b <==> s[|s| - 1] as int == b
    decreases |s|
  {
    var head := EncodeChar(s[0]);
    if |s| == 1 {
      assert Encode(s) == head + Encode([]);
    } else {
      EncodeEndsInAscii(s[1..], b);
      assert Encode(s) == head + Encode(s[1..]);
    }
  }

  /** Decoding and encoding are inverse in both directions. */
  lemma DecodeIsInverse(b: seq<byte>, s: string)
    ensures Decode(b) == Some(s) <==> Encode(s) == b
  {
    if Encode(s) == b {
      DecodeEncode(s);
    }
  }
}

=== FILE: wire.dfy ===
/** Byte-level vocabulary shared by the sender and the receiver: the byte
    type, the two reserved literals of the wire format, optional and
    fallible results, and the joining of datagram payloads. */
module Wire {

  /** One octet of a datagram. */
  type byte = x: int | 0 <= x < 256

  datatype Option<+T> = None | Some(value: T)

  datatype Result<+T, +E> = Ok(value: T) | Err(error: E)

  /** The delimiter between the textual sequence header and the payload, ASCII `|`. */
  const Bar: byte := 0x7C

  /** The end-of-file marker, the three ASCII bytes `EOF`. */
  const Eof: seq<byte> := [0x45, 0x4F, 0x46]

  /** `s` ends with the bytes `suffix`. */
  predicate EndsWith(s: seq<byte>, suffix: seq<byte>)
  {
    |suffix| <= |s| && s[|s| - |suffix|..] == suffix
  }

  /** The byte strings of `parts`, joined in order. */
  function Concat(parts: seq<seq<byte>>): seq<byte>
  {
    if parts == [] then [] else parts[0] + Concat(parts[1..])
  }

  /** Joining is compatible with appending one more part at the end. */
  lemma {:induction false} ConcatSnoc(parts: seq<seq<byte>>, last: seq<byte>)
    ensures Concat(parts + [last]) == Concat(parts) + last
  {
    if parts == [] {
      assert [] + [last] == [last];
      assert Concat([last]) == last + Concat([]);
    } else {
      assert (parts + [last])[1..] == parts[1..] + [last];
      ConcatSnoc(parts[1..], last);
    }
  }
}
